=== FILE: README.md ===
# Bokeh reveal mask — Dafny model

This project models the core of an image card whose picture is revealed by a
"bokeh" mask: a field of soft circles that orbit the card's centre, speed up
and grow while the card is hovered (an opacity multiplier is eased too, but
the shader never reads it), and decide per fragment how much of the image
shows. Four pieces are modelled:

- **The circle-field generator** (`CircleField`). It fills five
  fixed-capacity parameter arrays of 128 slots each: angle, radial distance,
  size, angular speed and opacity. The first `min(count, 128)` slots come from
  random draws shaped by a configuration, and the rest stay zero.
- **The animated material** (`MaskedImageMat`). It builds the uniform record
  once, from the field and the props. Each frame callback then eases three
  multipliers (speed, size, opacity) toward a hover-dependent target. It
  copies the eased size and opacity into the uniforms and uses the eased speed
  to advance the clock; `uSpeedMul` itself is pinned to 1.
- **The fragment shader** (`Shaders`), as a pure function of the uniforms, the
  fragment's texture coordinate and the sampled texel. The model covers:
  - the aspect-corrected position;
  - the loop over the active circles, with its early `break`;
  - the inverted-edge `smoothstep` soft disc;
  - the running `max`, the clamp and the discard threshold.
  
  The method `ShadeFragment` follows the GLSL `main()` statement by
  statement. It is proved equal to the declarative `Fragment`.
- **The card** (`Card`). It covers:
  - the rounded-rectangle outline, as the list of path commands it issues;
  - the image-plane sizing and the height/width ratio handed to the material;
  - the URL and aspect fallbacks;
  - which faces are rendered.

Arithmetic is over Dafny `real`, so there is no floating-point rounding. The
helpers live in two small modules:

- `RealMath`: `min`, `max`, `clamp`, three.js `MathUtils.lerp` and natural
  powers.
- `Optional`: JavaScript's `??`.

Three behaviours of the code that a reader might not expect:

- **Negative counts.** The generator caps the count above at 128 with
  `Math.min(count, MAX_CIRCLES)` (`circleField.js:11`), but does not raise a
  negative count to 0. With a negative count no slot is filled, and the shader
  draws no circle.
- **The shader ignores `opacityMul`.** Each circle is weighted by
  `uOpacities[i]` alone (`shaders.js:66`). The shader never reads
  `uOpacityMul`, `uOpacityCap` or `uSpeedMul`, so the eased opacity
  multiplier has no visible effect. The material also stores those two values
  under the misspelt keys `upacityMul` and `upacityCap`. The record field
  `opacityMul` stands for the `upacityMul` entry. `IgnoresUnreadUniforms`
  proves that none of these values can change the output.
- **The circle's outer edge.** The comment at `shaders.js:63` reads "1 at
  center → 0 at edge". `smoothstep(r, r - feather, d)` is 0 from `d = r`
  outwards and 1 inside `r - feather`, so the feather lies inside the radius
  (see `SoftCircleEdges`).

## Model

| member | source | states |
|---|---|---|
| RealMath.Lerp | src/components/materials/mask/circleField.js:25-27 | `lerp(x, y, t)` moves from `x` by the fraction `t` of the gap to `y`. For `t` in [0, 1] it lies between `x` and `y`. It gives `x` at 0 and `y` at 1. |
| RealMath.Clamp | src/components/materials/mask/shaders.js:69 | The result lies in `[lo, hi]`. It is `x` inside the range, `lo` below it and `hi` above it. |
| CircleField.ActiveCount | src/components/materials/mask/circleField.js:11 | The active count is at most 128 and at most the request. It equals one of the two, so a negative request stays negative. |
| CircleField.RadialDistance | src/components/materials/mask/circleField.js:20-21 | For `t` in [0, 1] the distance lies between the two ratio bounds, in either order. With equal bounds it is that bound. |
| CircleField.SizeAt | src/components/materials/mask/circleField.js:25 | The size stays inside the configured size range for a distance in [0, 1]. With equal bounds it is that size. |
| CircleField.SizeNonIncreasing | src/components/materials/mask/circleField.js:25 | A circle nearer the centre is never smaller. |
| CircleField.BaseAngle | src/components/materials/mask/circleField.js:23 | A draw in [0, 1) gives an angle in [0, 2π). |
| CircleField.MakeCircle | src/components/materials/mask/circleField.js:20-27 | Valid draws give a slot whose five values lie in their configured ranges. The slot's size is the size for its own distance. |
| CircleField.Generate | src/components/materials/mask/circleField.js:10-31 | All five arrays have 128 slots. `count` is `min(count, 128)`. Every active slot `i` is built from draw `i`, and every other slot is zero. |
| CircleField.CapacityClamp | src/components/materials/mask/circleField.js:11 | A request of 128 or more yields exactly 128 active circles. |
| CircleField.GeneratedWithinConfig | src/components/materials/mask/circleField.js:13-28 | In a generated field every active slot respects the configuration, and every slot from `count` on is zero. |
| CircleField.GeneratedNearerIsLarger | src/components/materials/mask/circleField.js:21-25 | Among active slots, a smaller distance never carries a smaller size. |
| CircleField.DegenerateRangesCollapse | src/components/materials/mask/circleField.js:21-25 | A collapsed distance range puts every active circle at that distance. A collapsed size range gives every active circle that size. |
| Shaders.Smoothstep | src/components/materials/mask/shaders.js:64 | The result lies in [0, 1]. It is 0 when the normalised position is ≤ 0 and 1 when it is ≥ 1, including for inverted edges. |
| Shaders.SoftCircleEdges | src/components/materials/mask/shaders.js:63-64 | For a positive feather, `smoothstep(r, r - feather, d)` is 1 for `d ≤ r - feather` and 0 for `d ≥ r`. |
| Shaders.AspectCorrectionIsotropic | src/components/materials/mask/shaders.js:37-42 | With the aspect set to height / width, the shader's coordinates are the physical offsets on the plane divided by one factor. |
| Shaders.ActiveCircles | src/components/materials/mask/shaders.js:46-47 | The loop runs `min(max(uNum, 0), 128)` times: never more than 128, never more than a positive `uNum`, and only fewer than 128 when `uNum` stops it. |
| Shaders.FragmentPosition | src/components/materials/mask/shaders.js:39-42 | The plane's centre maps to the origin. For a non-zero aspect the position can be mapped back to the texture coordinate, so distinct fragments get distinct positions. With aspect 1 it is the plain offset from the centre. |
| Shaders.OrbitCentre | src/components/materials/mask/shaders.js:49-53 | A circle at distance 0 sits at the plane's centre, whatever its angle. |
| Shaders.OrbitOnCircle | src/components/materials/mask/shaders.js:49-53 | With the aspect scaling undone, the orbit centre lies on the circle of radius `dist / 2` about the centre, when `cos` and `sin` of the angle lie on the unit circle. |
| Shaders.Feather | src/components/materials/mask/shaders.js:60-61 | The feather keeps the sign of `uEdge`. It equals `uEdge / uAspect` when the aspect is at or above 0.0001, and `uEdge / 0.0001` below that. |
| Shaders.CircleMask | src/components/materials/mask/shaders.js:55-66 | A circle's contribution lies between 0 and its opacity, for either sign of the opacity. |
| Shaders.CircleMaskEdges | src/components/materials/mask/shaders.js:55-66 | A circle contributes its full opacity inside `radius - feather` and nothing from `radius` outwards. |
| Shaders.MaxFold | src/components/materials/mask/shaders.js:44-66 | The running `max` from 0 is ≥ 0 and ≥ every contribution, and equals 0 or one of them. |
| Shaders.MaxFoldOrderFree | src/components/materials/mask/shaders.js:66 | Reordering the contributions leaves the mask unchanged. |
| Shaders.MaxFoldGrows | src/components/materials/mask/shaders.js:66 | Adding contributions never lowers the mask. |
| Shaders.Alpha | src/components/materials/mask/shaders.js:69 | Alpha lies in [0, 1] and equals the mask whenever the mask is at most 1, and is 1 when the mask is above 1. |
| Shaders.Fragment | src/components/materials/mask/shaders.js:69-73 | A fragment is discarded iff its alpha is below 0.001. Otherwise it keeps the texel's rgb and carries the alpha, in [0.001, 1]. |
| Shaders.FoldCircles | src/components/materials/mask/shaders.js:44-67 | The loop with its `break` leaves the running `max` of exactly the active circles' contributions. |
| Shaders.ShadeFragment | src/components/materials/mask/shaders.js:34-74 | The GLSL loop with its `break`, the running max, the clamp and the discard produce exactly the declarative `Fragment`. |
| Shaders.NoCirclesDiscards | src/components/materials/mask/shaders.js:44-72 | With `uNum ≤ 0` every fragment is discarded. |
| Shaders.OnlyActiveCirclesMatter | src/components/materials/mask/shaders.js:46-66 | Two uniform records that agree on the scalars the shader reads and on the active slots give the same output. |
| Shaders.IgnoresUnreadUniforms | src/components/materials/mask/shaders.js:17-20 | Changing `uSpeedMul`, `uOpacityMul` or `uOpacityCap` never changes the output. |
| Shaders.MoreCirclesNeverDim | src/components/materials/mask/shaders.js:46-66 | Raising `uNum` never lowers the mask. |
| Shaders.CentredCircleIsRound | src/components/materials/mask/shaders.js:39-58 | A circle at the centre reaches as far along u by `k` as along v by `k / aspect`. That is the same physical distance, so the circle is round. |
| MaskedImageMat.Approach | src/components/materials/MaskedImageMat.jsx:84-86 | One easing step leaves `(1 - lerp)` of the gap to the target. A value at its target stays there. |
| MaskedImageMat.ApproachNoOvershoot | src/components/materials/MaskedImageMat.jsx:84-86 | For `lerp` in [0, 1] one step lands between the value and its target. |
| MaskedImageMat.InitialMaterial | src/components/materials/MaskedImageMat.jsx:57-79 | The material starts with the multipliers at 1 and the clock at 0. The uniforms mirror the props, and the field's count and arrays are uploaded. |
| MaskedImageMat.Tick | src/components/materials/MaskedImageMat.jsx:80-95 | After a frame:<br>• the uniforms mirror the eased size and opacity and the current aspect and edge;<br>• `uSpeedMul` is 1;<br>• the clock advances by `dt * 1000 * speed`;<br>• each multiplier's gap shrinks by `(1 - lerp)`;<br>• the count and arrays are untouched. |
| MaskedImageMat.TickTargets | src/components/materials/MaskedImageMat.jsx:81-86 | While hovered, each multiplier closes the fraction `lerp` of its gap to `fastSpeedMul`, `hoverSizeMul` or `hoverOpacityMul`. Otherwise it closes that fraction of its gap to 1. |
| MaskedImageMat.Run | src/components/materials/MaskedImageMat.jsx:80-95 | Over any frame sequence the count and arrays are unchanged. After at least one frame the uniforms mirror the multipliers and props. |
| MaskedImageMat.SettleGap | src/components/materials/MaskedImageMat.jsx:84-86 | After `k` steps toward a fixed target, `(1 - lerp)^k` of the initial gap remains. |
| MaskedImageMat.SettleNoOvershoot | src/components/materials/MaskedImageMat.jsx:84-86 | For `lerp` in [0, 1], `k` steps stay between the start and the target. |
| MaskedImageMat.SettleFixed | src/components/materials/MaskedImageMat.jsx:84-86 | A value at its target never moves. |
| MaskedImageMat.HeldHoverSettles | src/components/materials/MaskedImageMat.jsx:80-86 | While hover is held, each multiplier after `k` frames is `k` independent easing steps toward its own target. |
| MaskedImageMat.HeldHoverNoOvershoot | src/components/materials/MaskedImageMat.jsx:80-86 | While hover is held, each multiplier stays between its start and its target. |
| MaskedImageMat.AtTargetStays | src/components/materials/MaskedImageMat.jsx:80-86 | Multipliers already at the held target stay there. |
| MaskedImageMat.ClockNeverRunsBack | src/components/materials/MaskedImageMat.jsx:84-88 | With non-negative frame times, speed profile and start speed, the eased speed stays non-negative and `uTime` never decreases. |
| MaskedImageMat.FieldUploadedOnce | src/components/materials/MaskedImageMat.jsx:68-73 | Frames never change `uNum`, the opacity cap or the circle arrays, which keep the generated field. |
| MaskedImageMat.SlowSettle | src/components/materials/MaskedImageMat.jsx:86 | At least 64 steps at `lerp = 0.05` from 1 leave under 5% of the gap to any target. |
| MaskedImageMat.HoverOpacitySettles | src/components/materials/MaskedImageMat.jsx:83-86 | Holding hover for 64 frames or more (1000 in particular) from rest at `opacityLerp = 0.05`:<br>• leaves under 5% of the opacity gap;<br>• for `hoverOpacityMul = 1.1`, ends within 1% of the target. |
| MaskedImageMat.EmptyFieldStaysHidden | src/components/materials/MaskedImageMat.jsx:54-68 | A field generated from a count ≤ 0 reveals nothing, before the first frame and after any number of frames. |
| MaskedImageMat.DefaultHoverOpacitySettles | src/components/materials/MaskedImageMat.jsx:80-86 | With the default props (`hoverOpacityMul = 1.1`, `opacityLerp = 0.05`), 64 or more hovered frames from rest bring the opacity multiplier within 0.005 of 1.1. |
| MaskedImageMat.DefaultField | src/components/materials/MaskedImageMat.jsx:13-28 | The default props generate 80 circles. Each has distance in [0.01, 0.7], size in [0.02, 0.08], speed in [-0.0001, 0.0001] and opacity in [0.2, 0.8]. A nearer circle is never smaller. |
| Card.CornerRadius | src/components/Card.jsx:10 | The radius drawn is at most the request, half the width and half the height, and equals one of them. So it is their minimum. |
| Card.RoundedRectShape | src/components/Card.jsx:6-22 | The outline is a move then four line/curve pairs, starting at `(-w/2 + r, -h/2)`. It ends where it started, so it is closed. |
| Card.ShapeWithinBounds | src/components/Card.jsx:8-20 | With non-negative sizes and radius, every end and control point lies in `[-w/2, w/2] × [-h/2, h/2]`. |
| Card.StraightEdges | src/components/Card.jsx:12-19 | The straight edges run right, up, left and down, of lengths `w - 2r` and `h - 2r`. Neither length is ever negative. |
| Card.CornersAtRectangleCorners | src/components/Card.jsx:14-20 | The four curves are controlled by the rectangle's corners. Each runs from `r` before its corner to `r` after it. |
| Card.SharpCorners | src/components/Card.jsx:10-20 | With radius 0 every curve collapses onto its corner, so the outline is the plain rectangle. |
| Card.PlaneWidth | src/components/Card.jsx:82 | The plane width is at least 0 and at least `width - 2 * margin`, and equals one of them. |
| Card.PlaneRatio | src/components/Card.jsx:84 | The quotient `h / w` is finite exactly when `w ≠ 0`, and then multiplies back to `h`. |
| Card.ImageAspect | src/components/Card.jsx:73-79 | Without an image the fallback is used. With one the aspect is positive and is the image's height over its width. |
| Card.FrontAspect | src/components/Card.jsx:73-75 | The front aspect is positive. It is 1 until the image loads, then the image's height over its width. |
| Card.BackAspect | src/components/Card.jsx:77-79 | The back aspect is positive. It is the back image's own ratio once loaded, else the front aspect, so 1 when neither image has loaded. |
| Card.FitFace | src/components/Card.jsx:82-88 | For both faces: the material is told exactly the image aspect whenever the plane width is non-zero. It gets no finite aspect exactly when the width is 0. Non-negative width and aspect give a non-negative height. The URL is the material's own `imageUrl`, else the face's URL. |
| Card.Render | src/components/Card.jsx:113-147 | The outline is the rounded rectangle. A face is present exactly when its material is supplied. Only the front face receives `hovered`. |
| Card.PlaneAspectMatchesImage | src/components/Card.jsx:82-84 | The front material's aspect equals the image aspect whenever the plane has width. It is not finite exactly when the width is 0. |
| Card.FaceSizesNonNegative | src/components/Card.jsx:82-88 | Both face planes have non-negative width and height. |
| Card.UrlFallbacks | src/components/Card.jsx:66-67 | Without a material URL, the front uses `frontImageUrl`, then the fallback. The back uses `backImageUrl`, then the front's URL, so the fallback when neither is given. |
| Card.BackMirrorsFront | src/components/Card.jsx:66-88 | With no `backImageUrl` the back texture is loaded from the front's URL and holds the same image. Then, with no material URLs and equal margins, the back face equals the front apart from the hover flag. |
| Card.DefaultCard | src/components/Card.jsx:24-43 | With default props the corner radius is 0.2 and no face is drawn. A front material without its own URL gets the fallback image on a plane 2.34 wide, told the image aspect. |

## Left out

- I/O and the host:
  - texture loading and texture settings, including the material's own `imageUrl ?? fallback` choice of what to load;
  - the vertex shader;
  - React hooks, rendering and element cloning;
  - the body meshes and their materials, plane positions, z offsets and rotation, the `side` prop;
  - the pointer handlers that set `hovered`, which is an input here;
  - the orbit controls, the plain image material, the scene and the app.
- The `useMemo` with an empty dependency list keeps the first uniforms object, so later changes to the memo's inputs would not reach the material. Hooks are not modelled. Every `Material` is built once by `InitialMaterial` and then only advanced by frames.
- `Math.random`, `Math.pow`, `cos`, `sin` and `length` are not modelled:
  - the random values of each slot are inputs (`Draw`);
  - the three GPU built-ins are function inputs (`Builtins`).
- Floating-point rounding is not modelled, including the `Float32Array` storage of the circle arrays. NaN, `-0` and infinite props are not modelled either.
- `makeMaskedImageFragmentShader`'s `MAX` parameter is fixed at the value the material passes, 128.
- The card's `fitMode` prop is declared but never used.
- Shaders.Smoothstep: requires distinct edges. GLSL leaves `edge0 == edge1` undefined, so a zero `uEdge` is outside the model. `Fragment`, `Mask` and the lemmas about them require `uEdge ≠ 0` for the same reason.
- CircleField.Generate: the count is an integer; a fractional `numCircles` prop is not modelled.
- CircleField.MakeCircle: the range guarantees assume draws in the ranges `Math.random` provides (`ValidDraw`). `Config.distanceExponent` is carried but never read, because `Math.pow` is not modelled. `ValidDraw` asks `t` to lie in [0, 1], which the source guarantees only for a non-negative `distanceExponent`. A negative exponent gives `t ≥ 1`, and `Infinity` when the random value is 0; that case is not modelled.
- Card.ImageAspect: a decoded image has at least one pixel per side; a zero-sized image, whose aspect would not be finite, is not modelled.
- MaskedImageMat.HoverOpacitySettles: the bound is proved from rest and for `opacityLerp = 0.05` only, not for every smoothing factor.

=== FILE: card.dfy ===
/** The card: a rounded-rectangle body outline, and up to two image planes
    (front and back) sized to the card's width and handed a material.

    React rendering, texture loading and three.js geometry are not modelled:
    the outline is the list of path commands the shape receives, each face is
    the record of sizes and props its plane and material receive, and the
    loaded images are inputs. */
module Card {
  import opened RealMath
  import opened Optional

  datatype Point = Point(x: real, y: real)

  /** The `THREE.Shape` calls the outline is built from; every command ends
      at its point `p`. */
  datatype PathCommand =
    | MoveTo(p: Point)
    | LineTo(p: Point)
    | QuadTo(control: Point, p: Point)

  /** The corner radius actually drawn: the requested radius, capped at half
      the shorter side. */
  function CornerRadius(width: real, height: real, radius: real): (r: real)
    ensures r <= radius && r <= width / 2.0 && r <= height / 2.0
    ensures r == radius || r == width / 2.0 || r == height / 2.0
  {
    Min(radius, Min(width, height) / 2.0)
  }

  /** The body outline, centred on the origin: it starts just right of the
      bottom-left corner and runs counter-clockwise, a straight edge then a
      rounded corner per side. */
  function RoundedRectShape(width: real, height: real, radius: real): (path: seq<PathCommand>)
    ensures |path| == 9
    ensures path[0].MoveTo? && path[0].p == Point(-width / 2.0 + CornerRadius(width, height, radius), -height / 2.0)
    ensures forall i | 1 <= i < |path| :: if i % 2 == 1 then path[i].LineTo? else path[i].QuadTo?
    ensures path[8].p == path[0].p
  {
    var x, y := -width / 2.0, -height / 2.0;
    var r := CornerRadius(width, height, radius);
    [ MoveTo(Point(x + r, y)),
      LineTo(Point(x + width - r, y)),
      QuadTo(Point(x + width, y), Point(x + width, y + r)),
      LineTo(Point(x + width, y + height - r)),
      QuadTo(Point(x + width, y + height), Point(x + width - r, y + height)),
      LineTo(Point(x + r, y + height)),
      QuadTo(Point(x, y + height), Point(x, y + height - r)),
      LineTo(Point(x, y + r)),
      QuadTo(Point(x, y), Point(x + r, y)) ]
  }

  /** The points a command places: its end point, and a curve's control point. */
  function Points(c: PathCommand): seq<Point> {
    match c
    case QuadTo(control, p) => [control, p]
    case _ => [c.p]
  }

  predicate InBox(q: Point, width: real, height: real) {
    -width / 2.0 <= q.x <= width / 2.0 && -height / 2.0 <= q.y <= height / 2.0
  }

  /** The displacement of command `i`'s end point from the previous one. */
  function Step(path: seq<PathCommand>, i: int): Point
    requires 1 <= i < |path|
  {
    Point(path[i].p.x - path[i - 1].p.x, path[i].p.y - path[i - 1].p.y)
  }

  /** With non-negative sizes and radius, every end and control point lies in
      the card's rectangle. */
  lemma ShapeWithinBounds(width: real, height: real, radius: real)
    requires 0.0 <= width && 0.0 <= height && 0.0 <= radius
    ensures var path := RoundedRectShape(width, height, radius);
      forall i, j | 0 <= i < |path| && 0 <= j < |Points(path[i])| :: InBox(Points(path[i])[j], width, height)
  {
    var path := RoundedRectShape(width, height, radius);
    var r := CornerRadius(width, height, radius);
    assert 0.0 <= r;
    forall i, j | 0 <= i < |path| && 0 <= j < |Points(path[i])|
      ensures InBox(Points(path[i])[j], width, height)
    {
    }
  }

  /** The four straight edges run along the sides counter-clockwise (right,
      up, left, down), each shortened by the two corners it joins; none has
      negative length, whatever the radius requested. */
  lemma StraightEdges(width: real, height: real, radius: real)
    ensures var path, r := RoundedRectShape(width, height, radius), CornerRadius(width, height, radius);
      && Step(path, 1) == Point(width - 2.0 * r, 0.0)
      && Step(path, 3) == Point(0.0, height - 2.0 * r)
      && Step(path, 5) == Point(-(width - 2.0 * r), 0.0)
      && Step(path, 7) == Point(0.0, -(height - 2.0 * r))
      && 0.0 <= width - 2.0 * r && 0.0 <= height - 2.0 * r
  {
  }

  /** Each rounded corner is controlled by a corner of the rectangle and
      turns the outline through it, from `r` before the corner to `r` after. */
  lemma CornersAtRectangleCorners(width: real, height: real, radius: real)
    ensures var path, r := RoundedRectShape(width, height, radius), CornerRadius(width, height, radius);
      && path[2].control == Point(width / 2.0, -height / 2.0)
      && path[4].control == Point(width / 2.0, height / 2.0)
      && path[6].control == Point(-width / 2.0, height / 2.0)
      && path[8].control == Point(-width / 2.0, -height / 2.0)
      && Step(path, 2) == Point(r, r) && Step(path, 4) == Point(-r, r)
      && Step(path, 6) == Point(-r, -r) && Step(path, 8) == Point(r, -r)
  {
  }

  /** A zero radius degenerates every corner onto its control point: the
      outline is the plain rectangle. */
  lemma SharpCorners(width: real, height: real)
    requires 0.0 <= width && 0.0 <= height
    ensures var path := RoundedRectShape(width, height, 0.0);
      forall i | 1 <= i < |path| && path[i].QuadTo? :: path[i].p == path[i].control && path[i - 1].p == path[i].control
  {
    assert CornerRadius(width, height, 0.0) == 0.0;
  }

  /** `Math.max(0, cardWidth - margin * 2)`: an image plane fits the card's
      width less a margin on each side, and never goes negative. */
  function PlaneWidth(cardWidth: real, margin: real): (w: real)
    ensures 0.0 <= w && cardWidth - margin * 2.0 <= w
    ensures w == 0.0 || w == cardWidth - margin * 2.0
  {
    Max(0.0, cardWidth - margin * 2.0)
  }

  /** JavaScript's `h / w` on plane sizes: `None` where the quotient is not a
      finite number, which happens exactly when `w` is zero. */
  function PlaneRatio(h: real, w: real): (q: Option<real>)
    ensures q.Some? <==> w != 0.0
    ensures q.Some? ==> q.value * w == h
  {
    if w == 0.0 then None else Some(h / w)
  }

  /** A decoded image's size in pixels; both sides are at least one pixel. */
  type Pixels = n: int | 1 <= n witness 1
  datatype Image = Image(width: Pixels, height: Pixels)

  /** `image.height / image.width` when the texture has an image, else the
      fallback. */
  function ImageAspect(image: Option<Image>, fallback: real): (a: real)
    ensures image.None? ==> a == fallback
    ensures image.Some? ==> 0.0 < a && a * image.value.width as real == image.value.height as real
  {
    match image
    case None => fallback
    case Some(img) => img.height as real / img.width as real
  }

  /** The fallback image for both faces. */
  const Fallback := "https://images.unsplash.com/photo-1591608971376-46e64aa7fd19?q=80&w=1024&auto=format&fit=crop&ixlib=rb-4.0.3"

  /** A material element passed in a face slot; only its own `imageUrl` prop
      is read. */
  datatype MaterialSlot = MaterialSlot(imageUrl: Option<string>)

  /** What a face's plane and cloned material receive: the plane's size and
      the injected props (`hovered` is only given to the front). */
  datatype Face = Face(width: real, height: real, hovered: Option<bool>, aspect: Option<real>, imageUrl: string)

  /** The card's props; `None` is a prop left `null` or `undefined`. */
  datatype CardProps = CardProps(
    width: real, height: real, cornerRadius: real,
    frontMaterial: Option<MaterialSlot>, frontImageUrl: Option<string>, imageMargin: real,
    backMaterial: Option<MaterialSlot>, backImageUrl: Option<string>, backImageMargin: real)

  /** The props' default values. */
  const DefaultProps := CardProps(2.5, 3.5, 0.2, None, Some(Fallback), 0.08, None, None, 0.08)

  /** The rendered card: the body outline and the optional faces. */
  datatype CardView = CardView(shape: seq<PathCommand>, front: Option<Face>, back: Option<Face>)

  function FrontUrl(props: CardProps): string {
    props.frontImageUrl.OrElse(Fallback)
  }

  function BackUrl(props: CardProps): string {
    props.backImageUrl.OrElse(FrontUrl(props))
  }

  /** The front texture's aspect, 1 until its image has loaded. */
  function FrontAspect(frontImage: Option<Image>): (a: real)
    ensures 0.0 < a
    ensures frontImage.None? ==> a == 1.0
    ensures frontImage.Some? ==> a * frontImage.value.width as real == frontImage.value.height as real
  {
    ImageAspect(frontImage, 1.0)
  }

  /** The back texture's aspect: its own image's ratio once loaded, else the
      front's aspect, so 1 when neither image has loaded. */
  function BackAspect(frontImage: Option<Image>, backImage: Option<Image>): (a: real)
    ensures 0.0 < a
    ensures backImage.Some? ==> a * backImage.value.width as real == backImage.value.height as real
    ensures backImage.None? ==> a == FrontAspect(frontImage)
    ensures backImage.None? && frontImage.None? ==> a == 1.0
  {
    ImageAspect(backImage, FrontAspect(frontImage))
  }

  /** Scaling a plane of non-zero width `w` to height `w * a` gives back the
      ratio `a`; a non-negative width and ratio give a non-negative height. */
  lemma ScaledPlane(w: real, a: real)
    ensures w != 0.0 ==> PlaneRatio(w * a, w) == Some(a)
    ensures 0.0 <= w && 0.0 <= a ==> 0.0 <= w * a
  {
    if w != 0.0 {
      var q := PlaneRatio(w * a, w).value;
      assert q * w == w * a;
      assert (q - a) * w == 0.0;
    }
    if 0.0 <= w && 0.0 <= a {
      MulNonneg(w, a);
    }
  }

  /** A face fitted to `planeWidth`: the height follows the image's aspect
      and the material is told the plane's own height-to-width ratio. */
  function FitFace(planeWidth: real, aspect: real, hovered: Option<bool>, slot: MaterialSlot, url: string): (f: Face)
    ensures f.width == planeWidth && f.height == planeWidth * aspect
    ensures f.aspect == PlaneRatio(f.height, f.width)
    ensures planeWidth != 0.0 ==> f.aspect == Some(aspect)
    ensures f.aspect.None? <==> planeWidth == 0.0
    ensures 0.0 <= planeWidth && 0.0 <= aspect ==> 0.0 <= f.height
    ensures f.hovered == hovered
    ensures slot.imageUrl.Some? ==> f.imageUrl == slot.imageUrl.value
    ensures slot.imageUrl.None? ==> f.imageUrl == url
  {
    ScaledPlane(planeWidth, aspect);
    var h := planeWidth * aspect;
    Face(planeWidth, h, hovered, PlaneRatio(h, planeWidth), slot.imageUrl.OrElse(url))
  }

  /** One render of the card, given the images its two textures loaded and
      the hover state. */
  function Render(props: CardProps, frontImage: Option<Image>, backImage: Option<Image>, hovered: bool): (v: CardView)
    ensures v.shape == RoundedRectShape(props.width, props.height, props.cornerRadius)
    ensures v.front.Some? <==> props.frontMaterial.Some?
    ensures v.back.Some? <==> props.backMaterial.Some?
    ensures v.front.Some? ==> v.front.value.hovered == Some(hovered)
    ensures v.back.Some? ==> v.back.value.hovered.None?
  {
    var front :=
      match props.frontMaterial
      case None => None
      case Some(slot) =>
        Some(FitFace(PlaneWidth(props.width, props.imageMargin), FrontAspect(frontImage),
                     Some(hovered), slot, FrontUrl(props)));
    var back :=
      match props.backMaterial
      case None => None
      case Some(slot) =>
        Some(FitFace(PlaneWidth(props.width, props.backImageMargin), BackAspect(frontImage, backImage),
                     None, slot, BackUrl(props)));
    CardView(RoundedRectShape(props.width, props.height, props.cornerRadius), front, back)
  }

  /** The material sees the image's aspect exactly when the plane has
      width; a zero-width plane gives it no finite aspect. */
  lemma PlaneAspectMatchesImage(props: CardProps, frontImage: Option<Image>, backImage: Option<Image>, hovered: bool)
    requires props.frontMaterial.Some?
    ensures var f := Render(props, frontImage, backImage, hovered).front.value;
      && (0.0 < f.width ==> f.aspect == Some(FrontAspect(frontImage)))
      && (f.width == 0.0 <==> f.aspect.None?)
  {
  }

  /** Every face plane has non-negative size. */
  lemma FaceSizesNonNegative(props: CardProps, frontImage: Option<Image>, backImage: Option<Image>, hovered: bool)
    ensures var v := Render(props, frontImage, backImage, hovered);
      && (v.front.Some? ==> 0.0 <= v.front.value.width && 0.0 <= v.front.value.height)
      && (v.back.Some? ==> 0.0 <= v.back.value.width && 0.0 <= v.back.value.height)
  {
  }

  /** The URL chain: a material's own `imageUrl` wins; otherwise the front
      face uses `frontImageUrl`, then the fallback; the back face uses
      `backImageUrl`, then whatever the front would use. */
  lemma UrlFallbacks(props: CardProps, frontImage: Option<Image>, backImage: Option<Image>, hovered: bool)
    ensures var v := Render(props, frontImage, backImage, hovered);
      && (v.front.Some? && props.frontMaterial.value.imageUrl.None? ==>
            v.front.value.imageUrl == (if props.frontImageUrl.Some? then props.frontImageUrl.value else Fallback))
      && (v.back.Some? && props.backMaterial.value.imageUrl.None? && props.backImageUrl.None? ==>
            v.back.value.imageUrl == FrontUrl(props))
      && (v.back.Some? && props.backMaterial.value.imageUrl.None? && props.backImageUrl.None? && props.frontImageUrl.None? ==>
            v.back.value.imageUrl == Fallback)
  {
  }

  /** With no `backImageUrl` the back texture is loaded from the front's URL,
      so both textures hold the same image. Then, with equal margins and
      material URLs left unset, the back face is a copy of the front apart
      from the hover flag. */
  lemma BackMirrorsFront(props: CardProps, frontImage: Option<Image>, hovered: bool)
    requires props.frontMaterial.Some? && props.backMaterial.Some?
    requires props.imageMargin == props.backImageMargin
    requires props.frontMaterial.value.imageUrl.None? && props.backMaterial.value.imageUrl.None?
    requires props.backImageUrl.None?
    ensures var v := Render(props, frontImage, frontImage, hovered);
      v.back.value == v.front.value.(hovered := None)
  {
    var w := PlaneWidth(props.width, props.imageMargin);
    assert BackAspect(frontImage, frontImage) == FrontAspect(frontImage);
    assert BackUrl(props) == FrontUrl(props);
    var f := FitFace(w, FrontAspect(frontImage), Some(hovered), props.frontMaterial.value, FrontUrl(props));
    var b := FitFace(w, FrontAspect(frontImage), None, props.backMaterial.value, FrontUrl(props));
    assert b == f.(hovered := None);
  }

  /** A card with every prop at its default: the outline has the 0.2 corner
      radius, no face is drawn until a material is supplied, and a front
      material with no URL of its own is given the fallback image on a plane
      2.34 wide. */
  lemma DefaultCard(frontImage: Option<Image>, backImage: Option<Image>, hovered: bool, slot: MaterialSlot)
    requires slot.imageUrl.None?
    ensures CornerRadius(DefaultProps.width, DefaultProps.height, DefaultProps.cornerRadius) == 0.2
    ensures var v := Render(DefaultProps, frontImage, backImage, hovered);
      v.front.None? && v.back.None?
    ensures var f := Render(DefaultProps.(frontMaterial := Some(slot)), frontImage, backImage, hovered).front.value;
      f.width == 2.34 && f.imageUrl == Fallback && f.aspect == Some(FrontAspect(frontImage))
  {
  }
}

=== FILE: circle_field.dfy ===
/** The circle-field generator: five fixed-capacity parameter arrays (angle,
    radial distance, size, angular speed, opacity) of which the first
    `count` slots are filled from random draws shaped by a configuration.

    `Math.random()` and `Math.pow` are not modelled: each active slot is
    given one `Draw` holding the four values the source obtains for it, in the
    order it obtains them. */
module CircleField {
  import opened RealMath

  /** Capacity shared by the generator and the fragment shader's arrays. */
  const MaxCircles: int := 128

  /** `Math.PI`, the double nearest to pi. */
  const Pi: real := 3.141592653589793

  /** The generator's configuration, built from the material's props. */
  datatype Config = Config(
    minSize: real, maxSize: real,
    minOpacity: real, maxOpacity: real,
    slowSpeedMin: real, slowSpeedMax: real,
    minDistanceRatio: real, maxDistanceRatio: real,
    distanceExponent: real)

  /** The random values consumed by one slot: `t` is
      `Math.pow(Math.random(), distanceExponent)`, the other three are raw
      `Math.random()` results. */
  datatype Draw = Draw(t: real, angle: real, speed: real, opacity: real)

  /** What the random source guarantees: `Math.random()` lies in [0, 1), and
      a power of it with a non-negative exponent lies in [0, 1]. */
  predicate ValidDraw(d: Draw) {
    && 0.0 <= d.t <= 1.0
    && 0.0 <= d.angle < 1.0
    && 0.0 <= d.speed < 1.0
    && 0.0 <= d.opacity < 1.0
  }

  /** One slot of the five arrays. */
  datatype Circle = Circle(baseAngle: real, distance: real, size: real, speed: real, opacity: real)

  /** A slot the generator leaves untouched (a fresh `Float32Array` is zero). */
  const EmptySlot := Circle(0.0, 0.0, 0.0, 0.0, 0.0)

  /** The generator's result: `{ baseAngles, distances, sizes, speeds, opacities, count }`. */
  datatype Field = Field(
    baseAngles: seq<real>,
    distances: seq<real>,
    sizes: seq<real>,
    speeds: seq<real>,
    opacities: seq<real>,
    count: int)

  predicate FixedCapacity(f: Field) {
    && |f.baseAngles| == MaxCircles
    && |f.distances| == MaxCircles
    && |f.sizes| == MaxCircles
    && |f.speeds| == MaxCircles
    && |f.opacities| == MaxCircles
  }

  function Slot(f: Field, i: int): Circle
    requires FixedCapacity(f) && 0 <= i < MaxCircles
  {
    Circle(f.baseAngles[i], f.distances[i], f.sizes[i], f.speeds[i], f.opacities[i])
  }

  /** `Math.min(count, MAX_CIRCLES)`: capped above, but a negative request is
      kept as it is. */
  function ActiveCount(count: int): (n: int)
    ensures n <= MaxCircles && n <= count
    ensures n == count || n == MaxCircles
  {
    if count < MaxCircles then count else MaxCircles
  }

  /** The radial distance: `t` mapped linearly from [0, 1] onto the
      configured ratio range. */
  function RadialDistance(cfg: Config, t: real): (d: real)
    ensures 0.0 <= t <= 1.0 ==> Between(d, cfg.minDistanceRatio, cfg.maxDistanceRatio)
    ensures cfg.minDistanceRatio == cfg.maxDistanceRatio ==> d == cfg.minDistanceRatio
  {
    ShiftedGapWithin(cfg.minDistanceRatio, t, cfg.maxDistanceRatio - cfg.minDistanceRatio);
    cfg.minDistanceRatio + t * (cfg.maxDistanceRatio - cfg.minDistanceRatio)
  }

  /** The radius of a circle at radial distance `d`: the size range is walked
      backwards, so a circle nearer the centre is larger. */
  function SizeAt(cfg: Config, d: real): (s: real)
    ensures cfg.minSize <= cfg.maxSize && 0.0 <= d <= 1.0 ==> cfg.minSize <= s <= cfg.maxSize
    ensures cfg.minSize == cfg.maxSize ==> s == cfg.minSize
  {
    Lerp(cfg.minSize, cfg.maxSize, 1.0 - d)
  }

  /** Nearer circles are never smaller (for a non-inverted size range). */
  lemma SizeNonIncreasing(cfg: Config, d1: real, d2: real)
    requires cfg.minSize <= cfg.maxSize
    requires d1 <= d2
    ensures SizeAt(cfg, d2) <= SizeAt(cfg, d1)
  {
    var g := cfg.maxSize - cfg.minSize;
    assert SizeAt(cfg, d1) - SizeAt(cfg, d2) == (d2 - d1) * g;
    MulNonneg(d2 - d1, g);
  }

  /** `Math.random() * Math.PI * 2.0`: an angle in [0, 2 pi). */
  function BaseAngle(r: real): (a: real)
    ensures 0.0 <= r < 1.0 ==> 0.0 <= a < 2.0 * Pi
  {
    r * Pi * 2.0
  }

  /** Every value of a generated circle lies within its configured range; the
      speed and opacity ranges may be given in either order. */
  predicate WithinConfig(cfg: Config, c: Circle) {
    && 0.0 <= c.baseAngle < 2.0 * Pi
    && Between(c.distance, cfg.minDistanceRatio, cfg.maxDistanceRatio)
    && Between(c.speed, cfg.slowSpeedMin, cfg.slowSpeedMax)
    && Between(c.opacity, cfg.minOpacity, cfg.maxOpacity)
    && (cfg.minSize <= cfg.maxSize && 0.0 <= c.distance <= 1.0 ==>
          cfg.minSize <= c.size <= cfg.maxSize)
  }

  /** The values written into one active slot. */
  function MakeCircle(cfg: Config, draw: Draw): (c: Circle)
    ensures ValidDraw(draw) ==> WithinConfig(cfg, c)
    ensures c.size == SizeAt(cfg, c.distance)
  {
    var d := RadialDistance(cfg, draw.t);
    Circle(
      BaseAngle(draw.angle),
      d,
      SizeAt(cfg, d),
      Lerp(cfg.slowSpeedMin, cfg.slowSpeedMax, draw.speed),
      Lerp(cfg.minOpacity, cfg.maxOpacity, draw.opacity))
  }

  /** `f` is what the generator returns for `count`, `cfg` and `draws`: full
      capacity, the capped count, slot `i` made from draw `i` when active and
      left zero otherwise. */
  predicate Generated(f: Field, count: int, cfg: Config, draws: seq<Draw>) {
    && FixedCapacity(f)
    && f.count == ActiveCount(count)
    && f.count <= |draws|
    && forall i | 0 <= i < MaxCircles ::
         Slot(f, i) == (if i < f.count then MakeCircle(cfg, draws[i]) else EmptySlot)
  }

  /** `generateCircleField(count, cfg)`, with the random source replaced by
      one draw per active slot. */
  method Generate(count: int, cfg: Config, draws: seq<Draw>) returns (f: Field)
    requires ActiveCount(count) <= |draws|
    ensures Generated(f, count, cfg, draws)
  {
    var n := ActiveCount(count);
    var active := if n < 0 then 0 else n;
    var zeros := seq(MaxCircles, _ => 0.0);
    var baseAngles, distances, sizes, speeds, opacities := zeros, zeros, zeros, zeros, zeros;
    var i := 0;
    while i < active
      invariant 0 <= i <= active
      invariant |baseAngles| == |distances| == |sizes| == |speeds| == |opacities| == MaxCircles
      invariant forall j | 0 <= j < i ::
        Circle(baseAngles[j], distances[j], sizes[j], speeds[j], opacities[j]) == MakeCircle(cfg, draws[j])
      invariant forall j | i <= j < MaxCircles ::
        Circle(baseAngles[j], distances[j], sizes[j], speeds[j], opacities[j]) == EmptySlot
    {
      var c := MakeCircle(cfg, draws[i]);
      baseAngles := baseAngles[i := c.baseAngle];
      distances := distances[i := c.distance];
      sizes := sizes[i := c.size];
      speeds := speeds[i := c.speed];
      opacities := opacities[i := c.opacity];
      i := i + 1;
    }
    f := Field(baseAngles, distances, sizes, speeds, opacities, n);
  }

  /** Requests above capacity are cut to exactly the capacity. */
  lemma CapacityClamp(f: Field, count: int, cfg: Config, draws: seq<Draw>)
    requires Generated(f, count, cfg, draws)
    requires count >= MaxCircles
    ensures f.count == MaxCircles
  {
  }

  /** Every active slot of a field built from valid draws respects the
      configured ranges, and every slot from `count` on is zero. */
  lemma GeneratedWithinConfig(f: Field, count: int, cfg: Config, draws: seq<Draw>, i: int)
    requires Generated(f, count, cfg, draws)
    requires forall j | 0 <= j < |draws| :: ValidDraw(draws[j])
    requires 0 <= i < MaxCircles
    ensures i < f.count ==> WithinConfig(cfg, Slot(f, i))
    ensures f.count <= i ==> Slot(f, i) == EmptySlot
  {
    if i < f.count {
      assert Slot(f, i) == MakeCircle(cfg, draws[i]);
      assert ValidDraw(draws[i]);
    }
  }

  /** Among active slots, the circle nearer the centre is at least as large. */
  lemma GeneratedNearerIsLarger(f: Field, count: int, cfg: Config, draws: seq<Draw>, i: int, j: int)
    requires Generated(f, count, cfg, draws)
    requires cfg.minSize <= cfg.maxSize
    requires 0 <= i < f.count && 0 <= j < f.count
    requires f.distances[i] <= f.distances[j]
    ensures f.sizes[j] <= f.sizes[i]
  {
    assert Slot(f, i) == MakeCircle(cfg, draws[i]);
    assert Slot(f, j) == MakeCircle(cfg, draws[j]);
    SizeNonIncreasing(cfg, f.distances[i], f.distances[j]);
  }

  /** A collapsed distance range puts every active circle at that distance,
      and a collapsed size range gives every active circle that size. */
  lemma DegenerateRangesCollapse(f: Field, count: int, cfg: Config, draws: seq<Draw>, i: int)
    requires Generated(f, count, cfg, draws)
    requires 0 <= i < f.count
    ensures cfg.minDistanceRatio == cfg.maxDistanceRatio ==> f.distances[i] == cfg.minDistanceRatio
    ensures cfg.minSize == cfg.maxSize ==> f.sizes[i] == cfg.minSize
  {
    assert Slot(f, i) == MakeCircle(cfg, draws[i]);
  }
}

=== FILE: masked_image_mat.dfy ===
/** The animated mask material: it builds the uniform record once from a
    generated circle field, then on every frame eases three multipliers
    (speed, size, opacity) toward a hover-dependent target. The eased size
    and opacity are copied into the uniforms; the eased speed only advances
    the shader clock, and `uSpeedMul` is pinned to 1.

    The React hooks become plain values: the `cur` ref and the uniform object
    are one `Material` record, and a frame maps it to its successor. */
module MaskedImageMat {
  import opened RealMath
  import opened CircleField
  import opened Shaders

  /** The material's animation props. */
  datatype Settings = Settings(
    aspect: real,
    edgeFeather: real,
    fastSpeedMul: real,
    hoverSizeMul: real,
    hoverOpacityMul: real,
    speedLerp: real,
    sizeLerp: real,
    opacityLerp: real)

  /** The props' default values. */
  const DefaultSettings := Settings(1.0, 0.008, 5.5, 2.5, 1.1, 0.05, 0.05, 0.05)
  const DefaultNumCircles: int := 80
  const DefaultConfig := Config(0.02, 0.08, 0.2, 0.8, 0.0001, -0.0001, 0.01, 0.7, 0.7)

  /** The eased multipliers held in the `cur` ref. */
  datatype Multipliers = Multipliers(speed: real, size: real, opacity: real)

  /** The idle target, and the value the ref starts from. */
  const Rest := Multipliers(1.0, 1.0, 1.0)

  /** What the host hands one frame: the hover prop and the elapsed seconds. */
  datatype Frame = Frame(hovered: bool, dt: real)

  /** The ref and the uniform object together. */
  datatype Material = Material(cur: Multipliers, uniforms: Uniforms)

  /** The target profile the hover flag selects. */
  function Targets(s: Settings, hovered: bool): Multipliers {
    if hovered then Multipliers(s.fastSpeedMul, s.hoverSizeMul, s.hoverOpacityMul) else Rest
  }

  /** `cur += (target - cur) * lerp`: the remaining gap shrinks by the factor
      `1 - lerp`. */
  function Approach(cur: real, target: real, lerp: real): (r: real)
    ensures target - r == (1.0 - lerp) * (target - cur)
    ensures cur == target ==> r == cur
  {
    cur + (target - cur) * lerp
  }

  /** For `lerp` in [0, 1] one step lands between the value and its target:
      no overshoot. */
  lemma ApproachNoOvershoot(cur: real, target: real, lerp: real)
    requires 0.0 <= lerp <= 1.0
    ensures Between(Approach(cur, target, lerp), cur, target)
  {
    ShiftedGapWithin(cur, lerp, target - cur);
  }

  function Ease(cur: Multipliers, s: Settings, hovered: bool): Multipliers {
    var t := Targets(s, hovered);
    Multipliers(
      Approach(cur.speed, t.speed, s.speedLerp),
      Approach(cur.size, t.size, s.sizeLerp),
      Approach(cur.opacity, t.opacity, s.opacityLerp))
  }

  /** The uniforms the frame callback overwrites agree with the ref and the
      props: speed is pinned to 1, size and opacity mirror the ref. */
  predicate Mirrors(m: Material, s: Settings) {
    && m.uniforms.speedMul == 1.0
    && m.uniforms.sizeMul == m.cur.size
    && m.uniforms.opacityMul == m.cur.opacity
    && m.uniforms.aspect == s.aspect
    && m.uniforms.edge == s.edgeFeather
  }

  /** The uniforms set only at construction are the same in both records. */
  predicate SameField(u: Uniforms, v: Uniforms) {
    && u.num == v.num
    && u.opacityCap == v.opacityCap
    && u.baseAngles == v.baseAngles
    && u.distances == v.distances
    && u.sizes == v.sizes
    && u.speeds == v.speeds
    && u.opacities == v.opacities
  }

  /** The uniform record carries the generated field and the props it was
      built from. */
  predicate Carries(u: Uniforms, field: Field, s: Settings) {
    && u.num == field.count
    && u.opacityCap == s.hoverOpacityMul
    && u.baseAngles == field.baseAngles
    && u.distances == field.distances
    && u.sizes == field.sizes
    && u.speeds == field.speeds
    && u.opacities == field.opacities
  }

  /** The material as first built: the ref at rest, the clock at zero and the
      field's arrays uploaded. */
  function InitialMaterial(field: Field, s: Settings): (m: Material)
    requires FixedCapacity(field)
    ensures WellFormed(m.uniforms)
    ensures m.cur == Rest && m.uniforms.time == 0.0
    ensures Mirrors(m, s)
    ensures Carries(m.uniforms, field, s)
  {
    Material(
      Rest,
      Uniforms(0.0, 1.0, 1.0, 1.0, s.hoverOpacityMul, s.aspect, s.edgeFeather, field.count,
               field.baseAngles, field.distances, field.sizes, field.speeds, field.opacities))
  }

  /** One frame of the `useFrame` callback. */
  function Tick(s: Settings, frame: Frame, m: Material): (r: Material)
    ensures Mirrors(r, s)
    ensures SameField(r.uniforms, m.uniforms)
    ensures r.uniforms.time == m.uniforms.time + frame.dt * 1000.0 * r.cur.speed
    ensures Targets(s, frame.hovered).speed - r.cur.speed
         == (1.0 - s.speedLerp) * (Targets(s, frame.hovered).speed - m.cur.speed)
    ensures Targets(s, frame.hovered).size - r.cur.size
         == (1.0 - s.sizeLerp) * (Targets(s, frame.hovered).size - m.cur.size)
    ensures Targets(s, frame.hovered).opacity - r.cur.opacity
         == (1.0 - s.opacityLerp) * (Targets(s, frame.hovered).opacity - m.cur.opacity)
  {
    var cur := Ease(m.cur, s, frame.hovered);
    var u := m.uniforms;
    Material(
      cur,
      u.(time := u.time + frame.dt * 1000.0 * cur.speed,
         speedMul := 1.0,
         sizeMul := cur.size,
         opacityMul := cur.opacity,
         aspect := s.aspect,
         edge := s.edgeFeather))
  }

  /** A frame moves each multiplier by the fraction `lerp` of its gap to
      the hover profile (`fastSpeedMul`, `hoverSizeMul`, `hoverOpacityMul`)
      while hovered, and to 1 otherwise. */
  lemma TickTargets(s: Settings, frame: Frame, m: Material)
    ensures var r := Tick(s, frame, m).cur;
      frame.hovered ==>
        && s.fastSpeedMul - r.speed == (1.0 - s.speedLerp) * (s.fastSpeedMul - m.cur.speed)
        && s.hoverSizeMul - r.size == (1.0 - s.sizeLerp) * (s.hoverSizeMul - m.cur.size)
        && s.hoverOpacityMul - r.opacity == (1.0 - s.opacityLerp) * (s.hoverOpacityMul - m.cur.opacity)
    ensures var r := Tick(s, frame, m).cur;
      !frame.hovered ==>
        && 1.0 - r.speed == (1.0 - s.speedLerp) * (1.0 - m.cur.speed)
        && 1.0 - r.size == (1.0 - s.sizeLerp) * (1.0 - m.cur.size)
        && 1.0 - r.opacity == (1.0 - s.opacityLerp) * (1.0 - m.cur.opacity)
  {
  }

  /** A sequence of frames, oldest first. */
  function Run(s: Settings, frames: seq<Frame>, m: Material): (r: Material)
    decreases |frames|
    ensures SameField(r.uniforms, m.uniforms)
    ensures WellFormed(m.uniforms) ==> WellFormed(r.uniforms)
    ensures 0 < |frames| ==> Mirrors(r, s)
  {
    if |frames| == 0 then m else Run(s, frames[1..], Tick(s, frames[0], m))
  }

  predicate HeldHover(frames: seq<Frame>, hovered: bool) {
    forall i | 0 <= i < |frames| :: frames[i].hovered == hovered
  }

  /** `k` easing steps of one multiplier toward a fixed target. */
  function Settle(cur: real, target: real, lerp: real, k: nat): real
    decreases k
  {
    if k == 0 then cur else Settle(Approach(cur, target, lerp), target, lerp, k - 1)
  }

  /** After `k` steps toward a fixed target, `(1 - lerp)^k` of the gap is left. */
  lemma {:induction false} SettleGap(cur: real, target: real, lerp: real, k: nat)
    decreases k
    ensures target - Settle(cur, target, lerp, k) == Pow(1.0 - lerp, k) * (target - cur)
  {
    if k > 0 {
      var c1 := Approach(cur, target, lerp);
      SettleGap(c1, target, lerp, k - 1);
      var b := 1.0 - lerp;
      var p := Pow(b, k - 1);
      assert Pow(b, k) == b * p;
      assert p * (b * (target - cur)) == (b * p) * (target - cur);
    }
  }

  /** With `lerp` in [0, 1], every step lands between the starting value and
      the target. */
  lemma {:induction false} SettleNoOvershoot(cur: real, target: real, lerp: real, k: nat)
    requires 0.0 <= lerp <= 1.0
    decreases k
    ensures Between(Settle(cur, target, lerp, k), cur, target)
  {
    if k > 0 {
      var c1 := Approach(cur, target, lerp);
      ApproachNoOvershoot(cur, target, lerp);
      SettleNoOvershoot(c1, target, lerp, k - 1);
    }
  }

  /** A value already at its target never moves. */
  lemma {:induction false} SettleFixed(cur: real, lerp: real, k: nat)
    decreases k
    ensures Settle(cur, cur, lerp, k) == cur
  {
    if k > 0 {
      SettleFixed(cur, lerp, k - 1);
    }
  }

  /** While the hover input is held, the three multipliers each settle on
      their own toward their entry of the one target profile. */
  lemma {:induction false} HeldHoverSettles(s: Settings, frames: seq<Frame>, hovered: bool, m: Material)
    requires HeldHover(frames, hovered)
    decreases |frames|
    ensures var t := Targets(s, hovered);
      Run(s, frames, m).cur == Multipliers(
        Settle(m.cur.speed, t.speed, s.speedLerp, |frames|),
        Settle(m.cur.size, t.size, s.sizeLerp, |frames|),
        Settle(m.cur.opacity, t.opacity, s.opacityLerp, |frames|))
  {
    if |frames| > 0 {
      var m1 := Tick(s, frames[0], m);
      assert frames[0].hovered == hovered;
      assert m1.cur == Ease(m.cur, s, hovered);
      HeldHoverTail(frames, hovered);
      HeldHoverSettles(s, frames[1..], hovered, m1);
    }
  }

  lemma HeldHoverTail(frames: seq<Frame>, hovered: bool)
    requires HeldHover(frames, hovered) && 0 < |frames|
    ensures HeldHover(frames[1..], hovered)
  {
    forall i | 0 <= i < |frames[1..]| ensures frames[1..][i].hovered == hovered {
      assert frames[1..][i] == frames[i + 1];
    }
  }

  /** With smoothing factors in [0, 1] and the hover input held, each
      multiplier stays between where it started and its target. */
  lemma HeldHoverNoOvershoot(s: Settings, frames: seq<Frame>, hovered: bool, m: Material)
    requires HeldHover(frames, hovered)
    requires 0.0 <= s.speedLerp <= 1.0 && 0.0 <= s.sizeLerp <= 1.0 && 0.0 <= s.opacityLerp <= 1.0
    ensures var t, r := Targets(s, hovered), Run(s, frames, m).cur;
      && Between(r.speed, m.cur.speed, t.speed)
      && Between(r.size, m.cur.size, t.size)
      && Between(r.opacity, m.cur.opacity, t.opacity)
  {
    var t, k := Targets(s, hovered), |frames|;
    HeldHoverSettles(s, frames, hovered, m);
    SettleNoOvershoot(m.cur.speed, t.speed, s.speedLerp, k);
    SettleNoOvershoot(m.cur.size, t.size, s.sizeLerp, k);
    SettleNoOvershoot(m.cur.opacity, t.opacity, s.opacityLerp, k);
  }

  /** Multipliers already at their target stay there while the hover input
      is held. */
  lemma AtTargetStays(s: Settings, frames: seq<Frame>, hovered: bool, m: Material)
    requires HeldHover(frames, hovered)
    requires m.cur == Targets(s, hovered)
    ensures Run(s, frames, m).cur == m.cur
  {
    HeldHoverSettles(s, frames, hovered, m);
    SettleFixed(m.cur.speed, s.speedLerp, |frames|);
    SettleFixed(m.cur.size, s.sizeLerp, |frames|);
    SettleFixed(m.cur.opacity, s.opacityLerp, |frames|);
  }

  /** With non-negative frame times and a non-negative speed profile, the
      eased speed stays non-negative and the shader clock never runs back. */
  lemma {:induction false} ClockNeverRunsBack(s: Settings, frames: seq<Frame>, m: Material)
    requires 0.0 <= m.cur.speed && 0.0 <= s.fastSpeedMul && 0.0 <= s.speedLerp <= 1.0
    requires forall i | 0 <= i < |frames| :: 0.0 <= frames[i].dt
    ensures 0.0 <= Run(s, frames, m).cur.speed
    ensures m.uniforms.time <= Run(s, frames, m).uniforms.time
  {
    if |frames| > 0 {
      var m1 := Tick(s, frames[0], m);
      var t := Targets(s, frames[0].hovered);
      ApproachNoOvershoot(m.cur.speed, t.speed, s.speedLerp);
      assert Between(m1.cur.speed, m.cur.speed, t.speed);
      assert 0.0 <= m1.cur.speed;
      MulNonneg(frames[0].dt * 1000.0, m1.cur.speed);
      assert m.uniforms.time <= m1.uniforms.time;
      forall i | 0 <= i < |frames[1..]| ensures 0.0 <= frames[1..][i].dt {
        assert frames[1..][i] == frames[i + 1];
      }
      ClockNeverRunsBack(s, frames[1..], m1);
    }
  }

  /** Frames never touch `uNum`, the opacity cap or the circle arrays: they
      keep the values uploaded from the field. */
  lemma FieldUploadedOnce(field: Field, s: Settings, frames: seq<Frame>)
    requires FixedCapacity(field)
    ensures Carries(Run(s, frames, InitialMaterial(field, s)).uniforms, field, s)
    ensures WellFormed(Run(s, frames, InitialMaterial(field, s)).uniforms)
  {
  }

  /** 0.95^k is below 5% from k = 64 on. */
  lemma SlowDecayBound(k: nat)
    requires 64 <= k
    ensures Pow(0.95, k) <= 0.05
  {
    var b := 0.95;
    assert Pow(b, 4) == 0.81450625;
    PowAdd(b, 4, 4);
    SquareAtMost(Pow(b, 4), 0.82);
    assert Pow(b, 8) <= 0.6724;
    PowAdd(b, 8, 8);
    SquareAtMost(Pow(b, 8), 0.6724);
    assert Pow(b, 16) <= 0.46;
    PowAdd(b, 16, 16);
    SquareAtMost(Pow(b, 16), 0.46);
    assert Pow(b, 32) <= 0.22;
    PowAdd(b, 32, 32);
    SquareAtMost(Pow(b, 32), 0.22);
    assert Pow(b, 64) <= 0.0484;
    PowAntitone(b, 64, k);
  }

  /** `k >= 64` steps at `lerp = 0.05` from 1 toward `h` leave under 5% of
      the gap. */
  lemma SlowSettle(h: real, k: nat)
    requires 64 <= k
    ensures Abs(h - Settle(1.0, h, 0.05, k)) <= 0.05 * Abs(h - 1.0)
  {
    var p := Pow(0.95, k);
    var gap := h - Settle(1.0, h, 0.05, k);
    SettleGap(1.0, h, 0.05, k);
    assert gap == p * (h - 1.0);
    SlowDecayBound(k);
    PowInUnit(0.95, k);
    ScaledAbsAtMost(p, 0.05, h - 1.0);
  }

  /** Holding hover for 64 frames or more at `opacityLerp = 0.05` from rest
      leaves under 5% of the opacity gap, which for the default
      `hoverOpacityMul` of 1.1 is within 1% of the target. */
  lemma HoverOpacitySettles(s: Settings, frames: seq<Frame>, m: Material)
    requires HeldHover(frames, true) && 64 <= |frames|
    requires s.opacityLerp == 0.05 && m.cur.opacity == 1.0
    ensures Abs(s.hoverOpacityMul - Run(s, frames, m).cur.opacity) <= 0.05 * Abs(s.hoverOpacityMul - 1.0)
    ensures s.hoverOpacityMul == 1.1 ==>
      Abs(s.hoverOpacityMul - Run(s, frames, m).cur.opacity) <= 0.01 * s.hoverOpacityMul
  {
    HeldHoverSettles(s, frames, true, m);
    SlowSettle(s.hoverOpacityMul, |frames|);
  }

  /** A field with no active circle reveals nothing, on every frame. */
  lemma EmptyFieldStaysHidden(field: Field, count: int, cfg: Config, draws: seq<Draw>, s: Settings,
                              frames: seq<Frame>, gpu: Builtins, uv: Vec2, texel: Texel)
    requires Generated(field, count, cfg, draws)
    requires count <= 0 && s.edgeFeather != 0.0
    ensures Fragment(Run(s, frames, InitialMaterial(field, s)).uniforms, gpu, uv, texel) == Discarded
  {
    var u := Run(s, frames, InitialMaterial(field, s)).uniforms;
    FieldUploadedOnce(field, s, frames);
    if |frames| == 0 {
      assert u == InitialMaterial(field, s).uniforms;
    }
    NoCirclesDiscards(u, gpu, uv, texel);
  }

  /** With the default props, holding hover for 64 frames or more from rest
      brings the opacity multiplier within 0.005 of 1.1. */
  lemma DefaultHoverOpacitySettles(frames: seq<Frame>, m: Material)
    requires HeldHover(frames, true) && 64 <= |frames|
    requires m.cur.opacity == 1.0
    ensures Abs(1.1 - Run(DefaultSettings, frames, m).cur.opacity) <= 0.005
  {
    HoverOpacitySettles(DefaultSettings, frames, m);
  }

  /** The default props ask for 80 circles, every one of them placed at a
      distance in [0.01, 0.7], sized in [0.02, 0.08] with nearer circles
      never smaller, turning at a speed in [-0.0001, 0.0001] and shown at an
      opacity in [0.2, 0.8]. */
  lemma DefaultField(f: Field, draws: seq<Draw>, i: int, j: int)
    requires Generated(f, DefaultNumCircles, DefaultConfig, draws)
    requires forall k | 0 <= k < |draws| :: ValidDraw(draws[k])
    requires 0 <= i < f.count && 0 <= j < f.count
    ensures f.count == 80
    ensures 0.01 <= f.distances[i] <= 0.7 && 0.02 <= f.sizes[i] <= 0.08
    ensures -0.0001 <= f.speeds[i] <= 0.0001 && 0.2 <= f.opacities[i] <= 0.8
    ensures f.distances[i] <= f.distances[j] ==> f.sizes[j] <= f.sizes[i]
  {
    GeneratedWithinConfig(f, DefaultNumCircles, DefaultConfig, draws, i);
    if f.distances[i] <= f.distances[j] {
      GeneratedNearerIsLarger(f, DefaultNumCircles, DefaultConfig, draws, i, j);
    }
  }
}

=== FILE: optional.dfy ===
/** A possibly-missing value: JavaScript's `null` / `undefined` props and an
    image that has not been decoded become `None`. */
module Optional {

  datatype Option<T> = None | Some(value: T) {

    /** JavaScript's nullish coalescing `this ?? fallback`. */
    function OrElse(fallback: T): (r: T)
      ensures Some? ==> r == value
      ensures None? ==> r == fallback
    {
      match this
      case Some(v) => v
      case None => fallback
    }
  }
}

=== FILE: real_math.dfy ===
/** Real-number helpers shared by the generator, the animation tick and the
    fragment shader: the JavaScript / GLSL built-ins `min`, `max`, `clamp`,
    three.js's `MathUtils.lerp`, and natural powers used to state how fast the
    smoothed multipliers converge. Floating-point rounding is not modelled. */
module RealMath {

  /** `Math.min` / GLSL `min` on two ordinary (non-NaN) numbers. */
  function Min(a: real, b: real): (m: real)
    ensures m <= a && m <= b
    ensures m == a || m == b
  {
    if a <= b then a else b
  }

  /** `Math.max` / GLSL `max`: the second argument when the first is smaller. */
  function Max(a: real, b: real): (m: real)
    ensures a <= m && b <= m
    ensures m == a || m == b
  {
    if a < b then b else a
  }

  /** GLSL `clamp(x, lo, hi)`, defined as `min(max(x, lo), hi)`; the GLSL ES
      specification leaves `lo > hi` undefined. */
  function Clamp(x: real, lo: real, hi: real): (c: real)
    requires lo <= hi
    ensures lo <= c <= hi
    ensures lo <= x <= hi ==> c == x
    ensures x < lo ==> c == lo
    ensures hi < x ==> c == hi
  {
    Min(Max(x, lo), hi)
  }

  /** `v` lies between `a` and `b`, whichever of the two is larger. */
  predicate Between(v: real, a: real, b: real) {
    a <= v <= b || b <= v <= a
  }

  lemma MulNonneg(a: real, b: real)
    requires 0.0 <= a && 0.0 <= b
    ensures 0.0 <= a * b
  {
  }

  function Abs(x: real): (a: real)
    ensures 0.0 <= a && (a == x || a == -x)
  {
    if x < 0.0 then -x else x
  }

  /** A factor at most `c` scales a non-negative `g` to at most `c * g`. */
  lemma MulAtMostBound(p: real, c: real, g: real)
    requires 0.0 <= p <= c && 0.0 <= g
    ensures 0.0 <= p * g <= c * g
  {
    MulNonneg(p, g);
    MulNonneg(c - p, g);
  }

  /** Scaling by a factor in [0, c] shrinks a magnitude to at most `c` times it. */
  lemma ScaledAbsAtMost(p: real, c: real, g: real)
    requires 0.0 <= p <= c
    ensures Abs(p * g) <= c * Abs(g)
  {
    MulAtMostBound(p, c, Abs(g));
    if g < 0.0 {
      assert p * g == -(p * Abs(g));
    }
  }

  lemma SquareAtMost(x: real, c: real)
    requires 0.0 <= x <= c
    ensures x * x <= c * c
  {
    MulAtMostBound(x, c, x);
    MulAtMostBound(x, c, c);
  }

  /** Two non-negative numbers with equal squares are equal. */
  lemma SquareInjective(x: real, y: real)
    requires 0.0 <= x && 0.0 <= y
    requires x * x == y * y
    ensures x == y
  {
    assert (x - y) * (x + y) == 0.0;
    if x + y != 0.0 {
      assert x - y == 0.0;
    }
  }

  /** A fraction `p` in [0, 1] of a non-negative `g` lies in [0, g]. */
  lemma FractionWithin(p: real, g: real)
    requires 0.0 <= p <= 1.0 && 0.0 <= g
    ensures 0.0 <= p * g <= g
  {
    MulNonneg(p, g);
    MulNonneg(1.0 - p, g);
    assert (1.0 - p) * g == g - p * g;
  }

  /** A fraction `p` in [0, 1] of a negative `g` lies in [g, 0]. */
  lemma FractionOfNegative(p: real, g: real)
    requires 0.0 <= p <= 1.0 && g < 0.0
    ensures g <= p * g <= 0.0
  {
    MulNonneg(p, -g);
    MulNonneg(1.0 - p, -g);
    assert (1.0 - p) * -g == p * g - g;
  }

  /** A fraction `t` in [0, 1] of a gap `g` lies between 0 and `g`. */
  lemma ScaledGapWithin(t: real, g: real)
    ensures 0.0 <= t <= 1.0 ==> Between(t * g, 0.0, g)
  {
    if 0.0 <= t <= 1.0 {
      if g >= 0.0 {
        FractionWithin(t, g);
      } else {
        FractionOfNegative(t, g);
      }
    }
  }

  /** Moving from `x` by a fraction `t` in [0, 1] of a gap `g` lands between
      `x` and `x + g`. */
  lemma ShiftedGapWithin(x: real, t: real, g: real)
    ensures 0.0 <= t <= 1.0 ==> Between(x + t * g, x, x + g)
  {
    ScaledGapWithin(t, g);
  }

  /** three.js `MathUtils.lerp(x, y, t)`, which computes `(1 - t) * x + t * y`.
      The result moves from `x` by the fraction `t` of the gap to `y`. */
  function Lerp(x: real, y: real, t: real): (r: real)
    ensures r - x == t * (y - x)
    ensures 0.0 <= t <= 1.0 ==> Between(r, x, y)
    ensures x == y ==> r == x
    ensures t == 0.0 ==> r == x
    ensures t == 1.0 ==> r == y
  {
    ShiftedGapWithin(x, t, y - x);
    assert (1.0 - t) * x + t * y == x + t * (y - x);
    (1.0 - t) * x + t * y
  }

  /** `b` raised to the natural power `k`. */
  function Pow(b: real, k: nat): real {
    if k == 0 then 1.0 else b * Pow(b, k - 1)
  }

  lemma {:induction false} PowInUnit(b: real, k: nat)
    requires 0.0 <= b <= 1.0
    ensures 0.0 <= Pow(b, k) <= 1.0
  {
    if k > 0 {
      PowInUnit(b, k - 1);
      FractionWithin(b, Pow(b, k - 1));
    }
  }

  lemma {:induction false} PowAdd(b: real, m: nat, n: nat)
    ensures Pow(b, m + n) == Pow(b, m) * Pow(b, n)
  {
    if m > 0 {
      PowAdd(b, m - 1, n);
      assert Pow(b, m + n) == b * Pow(b, (m - 1) + n);
    }
  }

  /** For a base in [0, 1], a higher power is never larger. */
  lemma {:induction false} PowAntitone(b: real, m: nat, n: nat)
    requires 0.0 <= b <= 1.0
    requires m <= n
    ensures Pow(b, n) <= Pow(b, m)
  {
    if m < n {
      PowAntitone(b, m, n - 1);
      PowInUnit(b, n - 1);
      FractionWithin(b, Pow(b, n - 1));
    }
  }
}

=== FILE: shaders.dfy ===
/** The masked-image fragment shader: for one fragment, the brightest of the
    soft orbiting circles decides how much of the image texel shows.

    Texture sampling gives the texel as an input; GLSL's `cos`, `sin` and
    `length` are supplied as functions in `Builtins`. Arithmetic is over
    `real`, without GPU float rounding. */
module Shaders {
  import opened RealMath
  import opened CircleField

  datatype Vec2 = Vec2(x: real, y: real)

  function Sub(a: Vec2, b: Vec2): Vec2 {
    Vec2(a.x - b.x, a.y - b.y)
  }

  /** The GPU built-ins the shader calls. */
  datatype Builtins = Builtins(cos: real -> real, sin: real -> real, length: Vec2 -> real)

  /** `length` is the Euclidean norm: non-negative and squaring to x^2 + y^2. */
  ghost predicate IsEuclidean(gpu: Builtins) {
    forall v: Vec2 :: 0.0 <= gpu.length(v) && gpu.length(v) * gpu.length(v) == v.x * v.x + v.y * v.y
  }

  /** The material's uniform record, one field per uniform (the texture
      sampler excepted). `opacityMul` and `opacityCap` stand for the entries
      the material stores under the keys `upacityMul` and `upacityCap`. */
  datatype Uniforms = Uniforms(
    time: real,
    speedMul: real,
    sizeMul: real,
    opacityMul: real,
    opacityCap: real,
    aspect: real,
    edge: real,
    num: int,
    baseAngles: seq<real>,
    distances: seq<real>,
    sizes: seq<real>,
    speeds: seq<real>,
    opacities: seq<real>)

  /** The five circle arrays have the shader's fixed length. */
  predicate WellFormed(u: Uniforms) {
    && |u.baseAngles| == MaxCircles
    && |u.distances| == MaxCircles
    && |u.sizes| == MaxCircles
    && |u.speeds| == MaxCircles
    && |u.opacities| == MaxCircles
  }

  datatype Texel = Texel(r: real, g: real, b: real, a: real)

  /** What the fragment shader produces: nothing, or a colour with alpha. */
  datatype Output = Discarded | Color(r: real, g: real, b: real, a: real)

  /** Fragments whose alpha is below this are discarded. */
  const DiscardBelow: real := 0.001

  /** The floor under the aspect when it divides the feather. */
  const MinAspect: real := 0.0001

  /** The cubic `t * t * (3 - 2t)` maps [0, 1] into [0, 1]. */
  lemma HermiteInUnit(t: real)
    requires 0.0 <= t <= 1.0
    ensures 0.0 <= t * t * (3.0 - 2.0 * t) <= 1.0
  {
    MulNonneg(t * t, 3.0 - 2.0 * t);
    assert 1.0 - t * t * (3.0 - 2.0 * t) == (1.0 - t) * (1.0 - t) * (1.0 + 2.0 * t);
    MulNonneg((1.0 - t) * (1.0 - t), 1.0 + 2.0 * t);
  }

  /** GLSL `smoothstep(e0, e1, x)` by its defining polynomial (section 8.3 of
      the GLSL ES 1.00 specification): `t = clamp((x - e0) / (e1 - e0), 0, 1)`,
      then `t * t * (3 - 2t)`. The formula is also used for `e0 > e1`, which
      the shader relies on; `e0 == e1` would divide by zero. */
  function Smoothstep(e0: real, e1: real, x: real): (s: real)
    requires e0 != e1
    ensures 0.0 <= s <= 1.0
    ensures (x - e0) / (e1 - e0) <= 0.0 ==> s == 0.0
    ensures (x - e0) / (e1 - e0) >= 1.0 ==> s == 1.0
  {
    var t := Clamp((x - e0) / (e1 - e0), 0.0, 1.0);
    HermiteInUnit(t);
    t * t * (3.0 - 2.0 * t)
  }

  /** With a positive feather, the inverted-edge smoothstep is a soft disc:
      fully on inside `r - feather`, fully off from `r` outwards. */
  lemma SoftCircleEdges(r: real, feather: real, d: real)
    requires 0.0 < feather
    ensures d <= r - feather ==> Smoothstep(r, r - feather, d) == 1.0
    ensures r <= d ==> Smoothstep(r, r - feather, d) == 0.0
  {
    var q := (d - r) / ((r - feather) - r);
    assert q == (r - d) / feather;
    if d <= r - feather {
      assert feather <= r - d;
      assert q >= 1.0;
    }
    if r <= d {
      assert r - d <= 0.0;
      assert q <= 0.0;
    }
  }

  /** `(vUv - 0.5) * vec2(1.0, uAspect)`: the fragment centred on the plane
      and its vertical axis scaled by the aspect (height / width). */
  function FragmentPosition(uv: Vec2, aspect: real): (p: Vec2)
    ensures uv == Vec2(0.5, 0.5) ==> p == Vec2(0.0, 0.0)
    ensures aspect != 0.0 ==> uv == Vec2(p.x + 0.5, p.y / aspect + 0.5)
    ensures aspect == 1.0 ==> p == Sub(uv, Vec2(0.5, 0.5))
  {
    Vec2((uv.x - 0.5) * 1.0, (uv.y - 0.5) * aspect)
  }

  /** The fragment's physical offset from the centre of a plane of the given
      size. */
  function PlaneOffset(uv: Vec2, width: real, height: real): Vec2 {
    Vec2((uv.x - 0.5) * width, (uv.y - 0.5) * height)
  }

  /** Aspect correction: on a plane whose aspect is height / width, the
      shader's coordinates are the physical offsets divided by one common
      factor, the width, so distances are isotropic. */
  lemma AspectCorrectionIsotropic(uv: Vec2, width: real, height: real)
    requires 0.0 < width
    ensures FragmentPosition(uv, height / width)
         == Vec2(PlaneOffset(uv, width, height).x / width, PlaneOffset(uv, width, height).y / width)
  {
    assert (uv.y - 0.5) * (height / width) == ((uv.y - 0.5) * height) / width;
  }

  /** The number of loop iterations before `if (i >= uNum) break;` fires or
      the loop reaches `MAX`. */
  function ActiveCircles(u: Uniforms): (n: nat)
    ensures n <= MaxCircles
    ensures 0 < n ==> n <= u.num
    ensures n < MaxCircles ==> u.num <= n
  {
    if u.num <= 0 then 0 else if u.num < MaxCircles then u.num else MaxCircles
  }

  function CircleAngle(u: Uniforms, i: int): real
    requires WellFormed(u) && 0 <= i < MaxCircles
  {
    u.baseAngles[i] + u.time * u.speeds[i]
  }

  /** The circle's orbit centre, in the same aspect-scaled space as the
      fragment; a circle at distance 0 sits at the plane's centre. */
  function OrbitCentre(u: Uniforms, gpu: Builtins, i: int): (c: Vec2)
    requires WellFormed(u) && 0 <= i < MaxCircles
    ensures u.distances[i] == 0.0 ==> c == Vec2(0.0, 0.0)
  {
    var ang := CircleAngle(u, i);
    Vec2(0.5 * u.distances[i] * gpu.cos(ang) * 1.0, 0.5 * u.distances[i] * gpu.sin(ang) * u.aspect)
  }

  /** Undoing the aspect scaling, the orbit centre lies on the circle of
      radius `dist / 2` about the plane's centre, at the circle's current
      angle, whenever `cos` and `sin` of that angle lie on the unit circle. */
  lemma OrbitOnCircle(u: Uniforms, gpu: Builtins, i: int)
    requires WellFormed(u) && 0 <= i < MaxCircles && u.aspect != 0.0
    requires var a := CircleAngle(u, i); gpu.cos(a) * gpu.cos(a) + gpu.sin(a) * gpu.sin(a) == 1.0
    ensures var c, r := OrbitCentre(u, gpu, i), 0.5 * u.distances[i];
      c.x * c.x + (c.y / u.aspect) * (c.y / u.aspect) == r * r
  {
    var a := CircleAngle(u, i);
    var c, r := OrbitCentre(u, gpu, i), 0.5 * u.distances[i];
    var co, si := gpu.cos(a), gpu.sin(a);
    assert c.x == r * co;
    assert c.y / u.aspect == r * si;
    assert (r * co) * (r * co) + (r * si) * (r * si) == r * r * (co * co + si * si);
  }

  function CircleRadius(u: Uniforms, i: int): real
    requires WellFormed(u) && 0 <= i < MaxCircles
  {
    u.sizes[i] * u.sizeMul
  }

  function CircleDistance(u: Uniforms, gpu: Builtins, p: Vec2, i: int): real
    requires WellFormed(u) && 0 <= i < MaxCircles
  {
    gpu.length(Sub(p, OrbitCentre(u, gpu, i)))
  }

  /** `uEdge / max(uAspect, 0.0001)`: the feather keeps the sign of `uEdge`,
      and is `uEdge / uAspect` for any aspect at or above the floor. */
  function Feather(u: Uniforms): (f: real)
    ensures 0.0 < u.edge ==> 0.0 < f
    ensures u.edge < 0.0 ==> f < 0.0
    ensures u.edge == 0.0 ==> f == 0.0
    ensures MinAspect <= u.aspect ==> f * u.aspect == u.edge
    ensures u.aspect < MinAspect ==> f * MinAspect == u.edge
  {
    u.edge / Max(u.aspect, MinAspect)
  }

  /** One circle's contribution to the mask at `p`. */
  function CircleMask(u: Uniforms, gpu: Builtins, p: Vec2, i: int): (m: real)
    requires WellFormed(u) && 0 <= i < MaxCircles && u.edge != 0.0
    ensures Between(m, 0.0, u.opacities[i])
  {
    var r := CircleRadius(u, i);
    var circle := Smoothstep(r, r - Feather(u), CircleDistance(u, gpu, p, i));
    ScaledGapWithin(circle, u.opacities[i]);
    circle * u.opacities[i]
  }

  /** A circle shows its full opacity inside `radius - feather` and nothing
      from `radius` outwards (for a positive edge). */
  lemma CircleMaskEdges(u: Uniforms, gpu: Builtins, p: Vec2, i: int)
    requires WellFormed(u) && 0 <= i < MaxCircles && 0.0 < u.edge
    ensures CircleDistance(u, gpu, p, i) <= CircleRadius(u, i) - Feather(u) ==> CircleMask(u, gpu, p, i) == u.opacities[i]
    ensures CircleRadius(u, i) <= CircleDistance(u, gpu, p, i) ==> CircleMask(u, gpu, p, i) == 0.0
  {
    SoftCircleEdges(CircleRadius(u, i), Feather(u), CircleDistance(u, gpu, p, i));
  }

  /** Circle `i` looks the same under two uniform records that agree on the
      scalars the shader reads and on slot `i`. */
  lemma SameCircle(u: Uniforms, v: Uniforms, gpu: Builtins, p: Vec2, i: int)
    requires WellFormed(u) && WellFormed(v) && 0 <= i < MaxCircles && u.edge != 0.0
    requires u.time == v.time && u.sizeMul == v.sizeMul && u.aspect == v.aspect && u.edge == v.edge
    requires u.baseAngles[i] == v.baseAngles[i] && u.distances[i] == v.distances[i]
    requires u.sizes[i] == v.sizes[i] && u.speeds[i] == v.speeds[i] && u.opacities[i] == v.opacities[i]
    ensures CircleMask(u, gpu, p, i) == CircleMask(v, gpu, p, i)
  {
    assert CircleAngle(u, i) == CircleAngle(v, i);
    assert OrbitCentre(u, gpu, i) == OrbitCentre(v, gpu, i);
    assert CircleDistance(u, gpu, p, i) == CircleDistance(v, gpu, p, i);
    assert CircleRadius(u, i) == CircleRadius(v, i);
    assert Feather(u) == Feather(v);
  }

  /** The contributions of the active circles, in loop order. */
  function Contributions(u: Uniforms, gpu: Builtins, p: Vec2): (cs: seq<real>)
    requires WellFormed(u) && u.edge != 0.0
    ensures |cs| == ActiveCircles(u)
    ensures forall i | 0 <= i < |cs| :: cs[i] == CircleMask(u, gpu, p, i)
  {
    seq(ActiveCircles(u), i requires 0 <= i < ActiveCircles(u) => CircleMask(u, gpu, p, i))
  }

  /** `mask = max(mask, c)` over `cs`, from `mask = 0.0`: the least value that
      is at least 0 and at least every element. */
  function MaxFold(cs: seq<real>): (m: real)
    ensures 0.0 <= m
    ensures forall i | 0 <= i < |cs| :: cs[i] <= m
    ensures m == 0.0 || m in cs
  {
    if |cs| == 0 then 0.0 else Max(MaxFold(cs[..|cs| - 1]), cs[|cs| - 1])
  }

  /** The fold's result depends only on which values occur, so reordering the
      circles leaves the mask unchanged. */
  lemma MaxFoldOrderFree(cs: seq<real>, ds: seq<real>)
    requires multiset(cs) == multiset(ds)
    ensures MaxFold(cs) == MaxFold(ds)
  {
    forall x | x in cs ensures x in ds {
      assert x in multiset(cs);
    }
    forall x | x in ds ensures x in cs {
      assert x in multiset(ds);
    }
    MaxFoldGrows(cs, ds);
    MaxFoldGrows(ds, cs);
  }

  /** Adding values (circles) never lowers the fold. */
  lemma MaxFoldGrows(cs: seq<real>, ds: seq<real>)
    requires forall x | x in cs :: x in ds
    ensures MaxFold(cs) <= MaxFold(ds)
  {
    var m := MaxFold(cs);
    if m != 0.0 {
      assert m in ds;
      var k :| 0 <= k < |ds| && ds[k] == m;
    }
  }

  function Mask(u: Uniforms, gpu: Builtins, uv: Vec2): real
    requires WellFormed(u) && u.edge != 0.0
  {
    MaxFold(Contributions(u, gpu, FragmentPosition(uv, u.aspect)))
  }

  function Alpha(u: Uniforms, gpu: Builtins, uv: Vec2): (a: real)
    requires WellFormed(u) && u.edge != 0.0
    ensures 0.0 <= a <= 1.0
    ensures Mask(u, gpu, uv) <= 1.0 ==> a == Mask(u, gpu, uv)
    ensures 1.0 < Mask(u, gpu, uv) ==> a == 1.0
  {
    Clamp(Mask(u, gpu, uv), 0.0, 1.0)
  }

  /** The fragment shader's result: the texel's colour with the clamped mask
      as alpha, or nothing when that alpha is below the discard threshold. */
  function Fragment(u: Uniforms, gpu: Builtins, uv: Vec2, texel: Texel): (out: Output)
    requires WellFormed(u) && u.edge != 0.0
    ensures out.Discarded? <==> Alpha(u, gpu, uv) < DiscardBelow
    ensures out.Color? ==> out.r == texel.r && out.g == texel.g && out.b == texel.b
    ensures out.Color? ==> out.a == Alpha(u, gpu, uv) && DiscardBelow <= out.a <= 1.0
  {
    var alpha := Alpha(u, gpu, uv);
    if alpha < DiscardBelow then Discarded else Color(texel.r, texel.g, texel.b, alpha)
  }

  /** The body of the shader's loop for circle `i`: its soft disc at `uvC`
      weighted by its opacity. */
  method ShadeCircle(u: Uniforms, gpu: Builtins, uvC: Vec2, i: int) returns (c: real)
    requires WellFormed(u) && 0 <= i < MaxCircles && u.edge != 0.0
    ensures c == CircleMask(u, gpu, uvC, i)
  {
    var scale := Vec2(1.0, u.aspect);
    var ang := u.baseAngles[i] + u.time * u.speeds[i];
    var dist := u.distances[i];
    var pos := Vec2(0.5 * dist * gpu.cos(ang) * scale.x, 0.5 * dist * gpu.sin(ang) * scale.y);
    var r := u.sizes[i] * u.sizeMul;
    var d := gpu.length(Vec2(uvC.x - pos.x, uvC.y - pos.y));
    var feather := u.edge / Max(scale.y, MinAspect);
    var circle := Smoothstep(r, r - feather, d);
    assert ang == CircleAngle(u, i);
    assert pos == OrbitCentre(u, gpu, i);
    assert d == CircleDistance(u, gpu, uvC, i);
    assert feather == Feather(u);
    assert r == CircleRadius(u, i);
    assert circle == Smoothstep(CircleRadius(u, i), CircleRadius(u, i) - Feather(u), CircleDistance(u, gpu, uvC, i));
    c := circle * u.opacities[i];
  }

  /** The shader's loop over at most `MAX` circles with its early `break`,
      keeping the running `max` of the contributions. */
  method FoldCircles(u: Uniforms, gpu: Builtins, uvC: Vec2) returns (mask: real)
    requires WellFormed(u) && u.edge != 0.0
    ensures mask == MaxFold(Contributions(u, gpu, uvC))
  {
    ghost var cs := Contributions(u, gpu, uvC);
    mask := 0.0;
    var i := 0;
    while i < MaxCircles
      invariant 0 <= i <= ActiveCircles(u)
      invariant mask == MaxFold(cs[..i])
    {
      if i >= u.num {
        break;
      }
      var c := ShadeCircle(u, gpu, uvC, i);
      assert cs[..i + 1][..i] == cs[..i];
      mask := Max(mask, c);
      i := i + 1;
    }
    assert i == |cs|;
    assert cs[..i] == cs;
  }

  /** The GLSL `main()` step by step: the aspect-scaled position, the loop,
      the clamp and the discard. */
  method ShadeFragment(u: Uniforms, gpu: Builtins, uv: Vec2, texel: Texel) returns (out: Output)
    requires WellFormed(u) && u.edge != 0.0
    ensures out == Fragment(u, gpu, uv, texel)
  {
    var scale := Vec2(1.0, u.aspect);
    var uvC := Vec2((uv.x - 0.5) * scale.x, (uv.y - 0.5) * scale.y);
    assert uvC == FragmentPosition(uv, u.aspect);
    var mask := FoldCircles(u, gpu, uvC);
    mask := Clamp(mask, 0.0, 1.0);
    var outCol := Color(texel.r, texel.g, texel.b, mask);
    if outCol.a < DiscardBelow {
      out := Discarded;
    } else {
      out := outCol;
    }
  }

  /** With `uNum <= 0` no circle is drawn and every fragment is discarded. */
  lemma NoCirclesDiscards(u: Uniforms, gpu: Builtins, uv: Vec2, texel: Texel)
    requires WellFormed(u) && u.edge != 0.0
    requires u.num <= 0
    ensures Fragment(u, gpu, uv, texel) == Discarded
  {
    assert Contributions(u, gpu, FragmentPosition(uv, u.aspect)) == [];
  }

  /** Only the uniforms the shader reads, and only circle slots below the
      active count, decide the output. */
  lemma OnlyActiveCirclesMatter(u: Uniforms, v: Uniforms, gpu: Builtins, uv: Vec2, texel: Texel)
    requires WellFormed(u) && WellFormed(v) && u.edge != 0.0
    requires u.time == v.time && u.sizeMul == v.sizeMul && u.aspect == v.aspect
    requires u.edge == v.edge && u.num == v.num
    requires forall i | 0 <= i < ActiveCircles(u) ::
      && u.baseAngles[i] == v.baseAngles[i] && u.distances[i] == v.distances[i]
      && u.sizes[i] == v.sizes[i] && u.speeds[i] == v.speeds[i] && u.opacities[i] == v.opacities[i]
    ensures Fragment(u, gpu, uv, texel) == Fragment(v, gpu, uv, texel)
  {
    var p := FragmentPosition(uv, u.aspect);
    var cu, cv := Contributions(u, gpu, p), Contributions(v, gpu, p);
    assert |cu| == |cv|;
    forall i | 0 <= i < |cu| ensures cu[i] == cv[i] {
      SameCircle(u, v, gpu, p, i);
    }
    assert cu == cv;
    assert Mask(u, gpu, uv) == Mask(v, gpu, uv);
    assert Alpha(u, gpu, uv) == Alpha(v, gpu, uv);
  }

  /** `uSpeedMul`, `uOpacityMul` and `uOpacityCap` are declared but never
      read: they cannot change the output. */
  lemma IgnoresUnreadUniforms(u: Uniforms, gpu: Builtins, uv: Vec2, texel: Texel,
                              speedMul: real, opacityMul: real, opacityCap: real)
    requires WellFormed(u) && u.edge != 0.0
    ensures Fragment(u.(speedMul := speedMul, opacityMul := opacityMul, opacityCap := opacityCap), gpu, uv, texel)
         == Fragment(u, gpu, uv, texel)
  {
    OnlyActiveCirclesMatter(u, u.(speedMul := speedMul, opacityMul := opacityMul, opacityCap := opacityCap), gpu, uv, texel);
  }

  /** Raising `uNum` only adds circles, so the mask never dims. */
  lemma MoreCirclesNeverDim(u: Uniforms, gpu: Builtins, uv: Vec2, num: int)
    requires WellFormed(u) && u.edge != 0.0
    requires u.num <= num
    ensures Mask(u, gpu, uv) <= Mask(u.(num := num), gpu, uv)
  {
    var w := u.(num := num);
    var p := FragmentPosition(uv, u.aspect);
    var cu, cw := Contributions(u, gpu, p), Contributions(w, gpu, p);
    assert |cu| <= |cw|;
    forall x | x in cu ensures x in cw {
      var k :| 0 <= k < |cu| && cu[k] == x;
      SameCircle(u, w, gpu, p, k);
      assert cw[k] == CircleMask(w, gpu, p, k);
    }
    MaxFoldGrows(cu, cw);
  }

  /** The aspect fix at work: a circle parked at the centre of a plane
      with aspect `a` reaches as far along u by `k` as along v by `k / a`,
      which is the same physical distance on that plane. */
  lemma CentredCircleIsRound(u: Uniforms, gpu: Builtins, i: int, k: real)
    requires WellFormed(u) && 0 <= i < MaxCircles
    requires IsEuclidean(gpu)
    requires 0.0 < u.aspect && u.distances[i] == 0.0
    ensures CircleDistance(u, gpu, FragmentPosition(Vec2(0.5 + k, 0.5), u.aspect), i)
         == CircleDistance(u, gpu, FragmentPosition(Vec2(0.5, 0.5 + k / u.aspect), u.aspect), i)
  {
    var a := u.aspect;
    assert OrbitCentre(u, gpu, i) == Vec2(0.0, 0.0);
    var p1 := FragmentPosition(Vec2(0.5 + k, 0.5), a);
    var p2 := FragmentPosition(Vec2(0.5, 0.5 + k / a), a);
    assert p2.y == k;
    var d1 := gpu.length(Sub(p1, Vec2(0.0, 0.0)));
    var d2 := gpu.length(Sub(p2, Vec2(0.0, 0.0)));
    assert d1 * d1 == k * k && d2 * d2 == k * k;
    SquareInjective(d1, d2);
  }
}
